=== FILE: README.md ===
# MindSight audio-to-risk pipeline: a Dafny model of its deterministic core

MindSight estimates depression risk from a speech recording. It turns the audio into a
fixed-length grid of 40 MFCC coefficients per frame, trains a CNN-BiLSTM classifier on
AVEC 2017 recordings joined to their PHQ-8 labels, and classifies a new upload as LOW or
HIGH risk. This project models the parts of that pipeline that do not involve numerics.
Decoding the audio and computing the MFCCs become an opaque `Decoder`. The neural network
becomes an opaque forward pass. The file system becomes a set of existing paths, a
directory-listing function and a CSV-reading function.

Modules, one per source file (plus two helpers):

- `Wrappers` (`wrappers.dfy`) defines `Option`, which stands for Python's `None` results
  and for exceptions the source catches.
- `Decimal` (`decimal.dfy`) models `str(int)` and `int(str)` for participant ids and
  coefficient indices.
- `Features` (`features.dfy`) models `extract_audio_features`: pad or truncate to
  `max_len`, the coefficient names, and the `(None, None)` failure.
- `Loader` (`loader.dfy`) models POSIX `os.path.join`, the label-file and audio-file path
  conventions, and the lookups that depend on whether a file exists.
- `Trainer` (`trainer.dfy`) models the dataset part of `train_model`: the
  `_AUDIO.wav` filter, the id parse, the first-row label join, the per-file skips, the
  collecting loop, stacking, one-hot encoding and the status strings.
- `Prediction` (`prediction.dfy`) models `predict_risk`: the early exits, batch
  expansion, first-maximum argmax, confidence and the HIGH/LOW label.

`MAX_LEN` is defined in `src/model/config`, which is not part of this model. It appears
as the parameter `maxLen`. The model keeps it as an `int`, so the negative case shows
Python's slice semantics.

Facts about the code that the model keeps:

- Examples keep directory-listing order. The code never sorts them by participant id.
- `train_model` always reads the `train` split.
- Padding appends zero rows as wide as the grid's own frames (`np.pad` on the time axis
  only), so one narrow grid pads without trouble (`NarrowGridPadsNarrow`).
- Nothing compares the example shapes before stacking. Grids of different lengths, or
  files whose frames differ in width, make `np.array(X)` raise. That needs a negative
  `max_len` or a decoder that does not give every file 40-wide frames, which `n_mfcc=40`
  rules out; `ConfiguredRunsStack` shows it cannot happen otherwise. A grid of zero frames
  carries no width in the model, so zero-frame examples (a `max_len` of 0) always count as
  stackable, although numpy would refuse `(0, 40)` and `(0, 1)` arrays together.
- A label is not checked when it is read. A label outside {0, 1} only fails at one-hot encoding.

## Model

| member | source | states |
|---|---|---|
| `Decimal.Format` | src/data_processing/loader.py:41 | The decimal text of a participant id is non-empty, holds no `_` or `/` (so it survives the `_` split and stays one path component), and starts with `-` exactly when the id is negative. |
| `Decimal.Parse` | src/model/trainer.py:68 | The id prefix parses exactly when it is an optional `+` or `-` followed by at least one ASCII digit; any other text is treated as `int()` raising, and the file is skipped. A negative result comes from a text that starts with `-`. |
| `Decimal.ParseFormat` | src/model/trainer.py:68 | `int()` of the text of any integer, as `str()` writes it, gives that integer back. |
| `Decimal.FormatInjective` | src/data_processing/loader.py:41 | Two different participant ids never produce the same id text. |
| `Decimal.DigitsValueLeadingZero` | src/model/trainer.py:68 | A leading `0` does not change the value `int()` gives a digit string. |
| `Decimal.CanonicalDigitsAreFormatted` | src/model/trainer.py:68 | A digit string with no leading zero (or the single digit `0`) parses, and `str()` of its value is the string itself. |
| `Decimal.ParseNormalises` | src/model/trainer.py:68 | For a non-empty digit string d, `int("+" + d) == int(d)`, `int("-" + d) == -int(d)` and `int("0" + d) == int(d)`. With the two lemmas above and `ParseFormat`, this fixes the value of every accepted prefix, such as `+7` or `0300`. |
| `Decimal.ParseAcceptsLeadingZeros` | src/model/trainer.py:68 | Parsing is not injective: the prefixes `007` and `7` both parse to participant 7. |
| `Features.PadOrTruncate` | src/data_processing/features.py:24-31 | For `max_len >= 0` the result has exactly `max_len` frames. Every frame that exists in both the input and the result is copied unchanged. Every frame past the input's end is all zeros, as wide as the input's first frame (40 wide when the input is empty). |
| `Features.PadLaw` | src/data_processing/features.py:25-28 | A grid shorter than `max_len` is the head of the result, and every later frame is all zeros with the width of the grid's own frames. |
| `Features.TruncateLaw` | src/data_processing/features.py:29-31 | A grid at least `max_len` long becomes exactly its first `max_len` frames. |
| `Features.NegativeMaxLenDropsTail` | src/data_processing/features.py:29-31 | A negative `max_len` takes the truncate branch with Python's negative slice: it drops that many frames from the end, and leaves nothing when the grid is shorter than that. |
| `Features.NarrowGridPadsNarrow` | src/data_processing/features.py:28 | Padding rows take the grid's width: a single one-coefficient frame padded to three frames gives `[[1.0], [0.0], [0.0]]`. |
| `Features.WidthPreserved` | src/data_processing/features.py:28 | Padding adds rows only: a non-empty grid of `w`-wide frames stays `w` wide, and an empty grid becomes 40 wide. |
| `Features.Idempotent` | src/data_processing/features.py:25-31 | Normalising twice gives the same result as once. A grid of exactly `max_len` frames is returned unchanged. |
| `Features.FeatureNames` | src/data_processing/features.py:33 | There are exactly 40 coefficient names. |
| `Features.FeatureNameIndexed` | src/data_processing/features.py:33 | Name i is `MFCC_` followed by exactly `str(i)`, a text that parses back to i. |
| `Features.FeatureNamesDistinct` | src/data_processing/features.py:33 | The 40 coefficient names are pairwise distinct. |
| `Features.ExtractAudioFeatures` | src/data_processing/features.py:10-39 | The features and the names are either both present or both None. They are present exactly when decoding succeeds. When present, the grid is the decoded grid padded or truncated to `max_len`: it has `max_len` frames, agrees with the decoded grid on their common frames, and every frame past the decoded grid is all zeros, as wide as the decoded frames. The names are the 40 coefficient names. |
| `Features.ExtractionShape` | src/data_processing/features.py:20-35 | With a decoder that yields 40-coefficient frames, every successful extraction is `max_len` by 40, whatever the audio's duration. |
| `Loader.Join` | src/data_processing/loader.py:25 | The joined path always ends with its last component. An absolute last component replaces the whole path. A relative one follows the first component, with exactly one `/` between them when the first is non-empty and has no trailing `/`, and none otherwise. |
| `Loader.LoadSplitData` | src/data_processing/loader.py:18-33 | The result is None (`Missing`) if and only if the split's label path does not exist. Reading raises (`Unreadable`) if and only if the path exists and `read_csv` fails. Otherwise the table is what reading that path yields. |
| `Loader.GetAudioPath` | src/data_processing/loader.py:35-44 | A path is returned if and only if the participant's audio path exists. The returned path is exactly that audio path, so it is an existing file ending in `{id}_AUDIO.wav`. |
| `Loader.LabelPathShape` | src/data_processing/loader.py:25 | For a non-empty base with no trailing separator and a split that is not absolute, the label path reads `base/Labels/{split}_split_Depression_AVEC2017.csv`. |
| `Loader.AbsoluteSplitDiscardsBase` | src/data_processing/loader.py:25 | A split that starts with `/` discards the base, as `os.path.join` does. |
| `Loader.AudioPathShape` | src/data_processing/loader.py:41 | The audio path is the `audio` directory, one separator and `{id}_AUDIO.wav`. For a base with no trailing separator this reads `base/audio/{id}_AUDIO.wav`. |
| `Loader.AudioPathInjective` | src/data_processing/loader.py:41 | Different participants have different audio paths. |
| `Trainer.AudioFiles` | src/model/trainer.py:62 | The filter keeps at most as many names as the listing has, and every kept name ends in `_AUDIO.wav`. |
| `Trainer.AudioFilesSelection` | src/model/trainer.py:62 | A name is kept if and only if it is in the listing and ends in `_AUDIO.wav`. A kept name occurs exactly as often as in the listing. |
| `Trainer.IdPrefix` | src/model/trainer.py:68 | The prefix has no underscore and starts the name. If anything follows the prefix, the next character is `_`. |
| `Trainer.FirstRowFrom` | src/model/trainer.py:69-72 | The result is None if and only if no row from `k` on has the id. Otherwise it is a matching row with no matching row before it. |
| `Trainer.FirstLabel` | src/model/trainer.py:69-72 | There is no label if and only if no row has the id. Otherwise the label is the `PHQ8_Binary` of the first matching row. |
| `Trainer.ProcessFileSpec` | src/model/trainer.py:67-84 | A file is skipped for a bad id if and only if its prefix does not parse. It is skipped for a missing label if and only if no row has its id. It yields an example if and only if the id parses, a row matches and extraction succeeds. That example carries the first matching row's label and the extracted grid. |
| `Trainer.KeptIndices` | src/model/trainer.py:64-80 | The positions of the example outcomes are strictly increasing, so each file contributes at most once and listing order is kept. Every position whose file yields an example is included, and no other. |
| `Trainer.AssembleExamples` | src/model/trainer.py:56-84 | X and y are the features and labels of the files that yield an example, in listing order. The processed count is their number. |
| `Trainer.ExamplesCollected` | src/model/trainer.py:66-80 | Entry k of the collected features and labels comes from the k-th example position. Every example file contributes exactly once and no skipped file contributes. |
| `Trainer.RunOutcomesAgree` | src/model/trainer.py:62-84 | Reading the raw listing in one pass gives the same outcomes as filtering for `_AUDIO.wav` first and then processing each kept file in order. |
| `Trainer.EncodedTrainingSet` | src/model/trainer.py:86-90 | When the labels encode, X and the one-hot rows pair up one to one with the example outcomes, in listing order. Row k is the one-hot encoding of the k-th example's label. |
| `Trainer.ExamplesHaveMaxLenFrames` | src/model/trainer.py:75-89 | For a non-negative `max_len`, every example of a run has exactly `max_len` frames. |
| `Trainer.ToCategorical` | src/model/trainer.py:90 | Encoding succeeds if and only if every label is 0 or 1. It then gives N rows, and row i has 1 at `label_i` and 0 at the other index. |
| `Trainer.Status` | src/model/trainer.py:51-104 | Exactly the labels-missing outcome, the no-data outcome and a trained outcome whose network is built, fitted and saved without raising return a string. `Labels file not found.` belongs to the missing label file alone, `No training data found.` to the empty example set alone, and the completion string to a trained outcome whose fitting and saving succeed. |
| `Trainer.TrainModel` | src/model/trainer.py:46-94 | A missing label file gives `Labels file not found.` and nothing else does. A label file that cannot be read raises, and so does an unreadable audio directory. No example gives `No training data found.`. Examples of different shapes raise at stacking. Then a label outside {0, 1} raises in the encoding. Otherwise X is the examples' features in listing order, y their one-hot labels, and for a non-negative `max_len` each example has `max_len` frames. |
| `Trainer.ExamplesHaveMfccShape` | src/model/trainer.py:75-89 | With a non-negative `max_len` and a 40-coefficient decoder, every collected example is `max_len` frames of 40 coefficients. |
| `Trainer.ConfiguredRunsStack` | src/model/trainer.py:75-89 | With a non-negative `max_len` and a 40-coefficient decoder, the examples of every run stack into one array, so `np.array(X)` never raises. |
| `Trainer.TrainLabelPathIsLoaderPath` | src/model/trainer.py:49 | The trainer's label file is the loader's label path for the `train` split. |
| `Trainer.AudioFileNameRoundTrip` | src/model/trainer.py:62-68 | The loader's `{id}_AUDIO.wav` passes the trainer's suffix filter, and its prefix parses back to the id, for every integer id. |
| `Trainer.AudioPathAgreesWithLoader` | src/model/trainer.py:74 | The path the trainer extracts for `{id}_AUDIO.wav` is the loader's audio path for that id. |
| `Trainer.ExampleShape` | src/model/trainer.py:75-80 | Every example is `max_len` frames of 40 coefficients, so the stacked tensor is N by `max_len` by 40. |
| `Trainer.ExampleIffLabelled` | src/model/trainer.py:62-80 | Every considered file is a listed `_AUDIO.wav` name. It contributes if and only if its id parses, some label row has that id and extraction succeeds. |
| `Prediction.Argmax` | src/ui/prediction.py:49 | The index is in range and holds a maximum. Every earlier entry is strictly smaller, which is the first-maximum tie-break. |
| `Prediction.ArgmaxFrom` | src/ui/prediction.py:49 | Scanning the rest of the vector, given the first maximum so far, ends at the first maximum of the whole vector. |
| `Prediction.ArgmaxUnique` | src/ui/prediction.py:49 | The first-maximum index is unique: any index with that property is the one `Argmax` returns. |
| `Prediction.PredictRisk` | src/ui/prediction.py:11-69 | A missing model gives not-trained, whatever the recording. A failed extraction gives no prediction. Otherwise the batch is the single extracted grid, which is also the heatmap. The prediction is 1 exactly when `P(high) > P(low)`. The confidence is the winning probability and is at least the other one. The risk is HIGH if and only if the prediction is 1. |
| `Prediction.TieBreaksLow` | src/ui/prediction.py:49-60 | Equal probabilities give `LOW` with the shared probability as confidence. |
| `Prediction.ConfidenceBounds` | src/ui/prediction.py:56 | When the network's output is a probability distribution, the confidence lies in [0.5, 1]. |
| `Prediction.ArgmaxOfOneHot` | src/ui/prediction.py:49 | The decision rule applied to a training one-hot row returns its label, so training and prediction use one class-index convention. |
| `Prediction.TrainAndPredictShapesAgree` | src/ui/prediction.py:25 | A prediction input and every training example have the same shape, `max_len` by 40. |

## Left out

- Audio decoding and MFCC computation (`librosa.load`, `librosa.feature.mfcc`, the transpose; features.py:16-22) are floating-point signal processing in an external library. They are the opaque `Decoder` parameter. Its None stands for any exception.
- The network (`get_model`), `fit`, `save`, `load_model` and `model.predict` are numerics and persistence. Training stops at the `Trained` outcome, before fitting; whether building, fitting and saving then raise (a single example leaves the 0.2 validation split no training sample, a `max_len` can be too short for the convolutions) is the `fitted` parameter of `Status`. Prediction takes `forward` (the output for the batch) and `modelLoads` (whether loading succeeds) as parameters.
- CSV parsing is the opaque `readCsv`, whose None stands for any exception `read_csv` raises. A table missing the `Participant_ID` or `PHQ8_Binary` column (a KeyError that would skip every file) is not modelled: rows always carry both fields.
- `os.listdir` is the `listDir` parameter, and existence checks are membership in a set of paths.
- `extract_data` (archive extraction) is I/O.
- The Streamlit UI (app.py, the analysis and training pages, widgets, the temporary-file write and removal, the heatmap plot) is presentation and I/O.
- Progress and warning prints are side effects with no effect on results.
- Floating-point values are modelled as reals. NaN and infinities are not modelled: `np.argmax` would return the index of the first NaN, so a NaN `P(high)` would give HIGH, which the `pHigh > pLow` rule cannot express.
- Trainer.TrainModel: ragged examples are modelled as raising at `np.array(X)`, as current numpy does. Older numpy builds an object array there and fails only at `X.shape[2]` (trainer.py:94), after the label encoding, so with such versions a ragged run with a non-binary label fails at the encoding first.
- Trainer.TrainModel: a grid of zero frames carries no width, so with a `max_len` of 0 the examples always count as stackable, while numpy refuses to stack a `(0, 40)` with a `(0, 1)` array. A 40-coefficient decoder makes every width 40, so this does not arise as configured.
- Paths follow POSIX rules only. Windows drive-letter paths are not modelled.
- Decimal.Parse: `int()` leniency is not modelled: surrounding whitespace, digit-group underscores and non-ASCII digits. The model accepts only an optional sign followed by ASCII digits, so its iff is narrower than `int()` on those texts.
- Trainer.ToCategorical: a label outside {0, 1} is modelled as a failed encoding. The underlying numpy indexing would wrap a negative label to a column, and that library behaviour is not modelled.
- Trainer.AudioFilesSelection: states membership and multiplicity, but not the listing's relative order. Order is stated by `RunOutcomesAgree`, which matches the filtered files one for one against a single in-order pass over the listing.
- Prediction.PredictRisk: the model is a pure function, so it cannot say that extraction is never attempted when no model is saved. It states instead that the outcome is then `ModelNotTrained` whatever the decoder returns.

=== FILE: decimal.dfy ===
/** Conversions between integers and decimal text as the pipeline uses them:
    `str(n)` (and f-string formatting) of participant ids and coefficient indices,
    and `int(s)` applied to the prefix of an audio file name. */
module Decimal {
  import opened Wrappers

  predicate IsDigit(c: char) {
    '0' <= c <= '9'
  }

  predicate AllDigits(s: string) {
    forall i :: 0 <= i < |s| ==> IsDigit(s[i])
  }

  function DigitChar(d: nat): (c: char)
    requires d < 10
    ensures IsDigit(c)
  {
    ('0' as int + d) as char
  }

  function DigitValue(c: char): (d: nat)
    requires IsDigit(c)
    ensures d < 10
  {
    c as int - '0' as int
  }

  /** The decimal digits of `n`, most significant first, with no leading zero. */
  function FormatNat(n: nat): (s: string)
    ensures |s| > 0 && AllDigits(s)
    ensures s[0] == '0' <==> n == 0
    decreases n
  {
    if n < 10 then [DigitChar(n)] else FormatNat(n / 10) + [DigitChar(n % 10)]
  }

  /** Python `str(n)` for an integer: a minus sign for negative values, then the digits. */
  function Format(n: int): (s: string)
    ensures |s| > 0
    ensures '_' !in s && '/' !in s
    ensures s[0] == '-' <==> n < 0
  {
    if n < 0 then "-" + FormatNat(-n) else FormatNat(n)
  }

  /** The value of a string of decimal digits (leading zeros allowed, empty is 0). */
  function DigitsValue(s: string): nat
    requires AllDigits(s)
    decreases |s|
  {
    if |s| == 0 then 0 else DigitsValue(s[..|s| - 1]) * 10 + DigitValue(s[|s| - 1])
  }

  /** The integer literals `int(...)` accepts in this model: an optional `+` or `-`
      followed by at least one ASCII digit. */
  predicate IsIntLiteral(s: string) {
    if |s| > 0 && (s[0] == '+' || s[0] == '-') then |s| > 1 && AllDigits(s[1..])
    else |s| > 0 && AllDigits(s)
  }

  /** Python `int(s)`; None stands for the ValueError raised on anything else. */
  function Parse(s: string): (r: Option<int>)
    ensures r.Some? <==> IsIntLiteral(s)
    ensures r.Some? && r.value < 0 ==> s[0] == '-'
  {
    if |s| > 0 && (s[0] == '+' || s[0] == '-') then
      if |s| > 1 && AllDigits(s[1..]) then
        var m: int := DigitsValue(s[1..]);
        Some(if s[0] == '-' then -m else m)
      else None
    else if |s| > 0 && AllDigits(s) then Some(DigitsValue(s))
    else None
  }

  lemma {:induction false} DigitsValueOfFormatNat(n: nat)
    ensures DigitsValue(FormatNat(n)) == n
    decreases n
  {
    if n >= 10 {
      var s := FormatNat(n);
      var p := FormatNat(n / 10);
      assert s == p + [DigitChar(n % 10)];
      assert s[..|s| - 1] == p;
      DigitsValueOfFormatNat(n / 10);
    }
  }

  /** Parsing the text of any integer gives that integer back. */
  lemma ParseFormat(n: int)
    ensures Parse(Format(n)) == Some(n)
  {
    var s := Format(n);
    if n < 0 {
      var digits := FormatNat(-n);
      assert s == "-" + digits;
      assert s[1..] == digits;
      DigitsValueOfFormatNat(-n);
    } else {
      assert s == FormatNat(n);
      assert s[0] != '+' && s[0] != '-';
      DigitsValueOfFormatNat(n);
    }
  }

  /** Distinct integers have distinct texts. */
  lemma FormatInjective(a: int, b: int)
    ensures Format(a) == Format(b) ==> a == b
  {
    ParseFormat(a);
    ParseFormat(b);
  }

  /** A leading zero adds nothing to a digit string's value. */
  lemma {:induction false} DigitsValueLeadingZero(d: string)
    requires AllDigits(d)
    ensures AllDigits("0" + d) && DigitsValue("0" + d) == DigitsValue(d)
    decreases |d|
  {
    var z := "0" + d;
    assert AllDigits(z) by {
      assert forall i :: 0 < i < |z| ==> z[i] == d[i - 1];
    }
    if |d| > 0 {
      assert z[..|z| - 1] == "0" + d[..|d| - 1];
      DigitsValueLeadingZero(d[..|d| - 1]);
    }
  }

  /** A digit string without a leading zero is exactly the text `str()` writes for its
      value, so every such text is reached by formatting. */
  lemma {:induction false} CanonicalDigitsAreFormatted(d: string)
    requires |d| > 0 && AllDigits(d)
    requires d[0] != '0' || |d| == 1
    ensures Parse(d).Some? && Format(Parse(d).value) == d
    decreases |d|
  {
    assert Parse(d) == Some(DigitsValue(d) as int);
    if |d| > 1 {
      var p := d[..|d| - 1];
      var c := d[|d| - 1];
      assert p[0] == d[0];
      CanonicalDigitsAreFormatted(p);
      assert Parse(p) == Some(DigitsValue(p) as int);
      var m := DigitsValue(p);
      assert FormatNat(m) == p;
      assert m != 0;
      var n := DigitsValue(d);
      assert n / 10 == m && n % 10 == DigitValue(c);
      assert DigitChar(DigitValue(c)) == c;
      assert FormatNat(n) == FormatNat(m) + [c];
      assert d == p + [c];
    } else {
      assert DigitChar(DigitValue(d[0])) == d[0];
      assert DigitsValue(d) == DigitValue(d[0]) by {
        assert d[..0] == "";
      }
    }
  }

  /** Every literal `int()` accepts reduces to a canonical one: a `+` sign changes nothing,
      a `-` sign negates, and a leading zero is dropped. With `CanonicalDigitsAreFormatted`
      and `ParseFormat` this fixes the value of every accepted text. */
  lemma ParseNormalises(d: string)
    requires |d| > 0 && AllDigits(d)
    ensures Parse(d).Some?
    ensures Parse("+" + d) == Parse(d)
    ensures Parse("-" + d) == Some(-Parse(d).value)
    ensures Parse("0" + d) == Parse(d)
  {
    assert ("+" + d)[1..] == d;
    assert ("-" + d)[1..] == d;
    DigitsValueLeadingZero(d);
  }

  /** Parsing is not the inverse of formatting on all texts: leading zeros are accepted,
      so "007" and "7" name the same integer. */
  lemma ParseAcceptsLeadingZeros()
    ensures Parse("007") == Some(7) == Parse("7")
  {
    assert AllDigits("007");
    assert "007"[..2] == "00";
    assert "00"[..1] == "0";
    assert "0"[..0] == "";
  }
}

=== FILE: features.dfy ===
/** Feature extraction for one recording (src/data_processing/features.py).
    Decoding the audio and computing the cepstral coefficients are outside the model:
    they arrive as a `Decoder`, which yields the `(time, 40)` frame grid or fails.
    What is modelled is everything the extractor does with that grid: normalising its
    length to `maxLen` rows, naming the 40 coefficients, and the all-or-nothing result. */
module Features {
  import opened Wrappers
  import Decimal

  /** Coefficients per frame (`n_mfcc=40`), and the number of feature names. */
  const NumMfcc: nat := 40
  /** The sample rate the extractor resamples to unless told otherwise. */
  const DefaultSampleRate: int := 16000

  type Frame = seq<real>
  /** A time-major feature grid: one frame per analysis window. */
  type Grid = seq<Frame>

  /** Loading the file at a path at a sample rate and computing its transposed MFCC grid;
      None stands for any exception raised while doing so. */
  type Decoder = (string, int) -> Option<Grid>

  /** Every frame of `g` has `w` coefficients. */
  predicate HasWidth(g: Grid, w: nat) {
    forall i :: 0 <= i < |g| ==> |g[i]| == w
  }

  /** The decoder always produces 40-coefficient frames, as the cepstral transform does. */
  ghost predicate YieldsMfccFrames(decode: Decoder) {
    forall path: string, sr: int :: decode(path, sr).Some? ==> HasWidth(decode(path, sr).value, NumMfcc)
  }

  /** A frame of `w` zero coefficients. */
  function ZeroFrame(w: nat): (f: Frame)
    ensures |f| == w
    ensures forall j :: 0 <= j < |f| ==> f[j] == 0.0
  {
    seq(w, _ => 0.0)
  }

  /** The width of the frames `np.pad` appends: that of the grid's own frames. An empty
      grid is librosa's `(0, n_mfcc)` array, whose padding rows are 40 wide. */
  function PadWidth(g: Grid): (w: nat)
    ensures |g| > 0 ==> w == |g[0]|
    ensures |g| == 0 ==> w == NumMfcc
  {
    if |g| > 0 then |g[0]| else NumMfcc
  }

  /** The stop index Python uses for the slice `g[:stop]` of a sequence of length `len`:
      a negative stop counts from the end. */
  function SliceStop(stop: int, len: nat): (k: nat)
    ensures k <= len
    ensures 0 <= stop <= len ==> k == stop
  {
    if stop < 0 then (if len + stop < 0 then 0 else len + stop)
    else if stop > len then len
    else stop
  }

  /** The pad-or-truncate step: a grid shorter than `maxLen` gets zero frames appended at
      the end, each as wide as the grid's first frame; otherwise it keeps its first
      `maxLen` frames. */
  function PadOrTruncate(g: Grid, maxLen: int): (r: Grid)
    ensures maxLen >= 0 ==> |r| == maxLen
    ensures forall i :: 0 <= i < |r| && i < |g| ==> r[i] == g[i]
    ensures forall i :: |g| <= i < |r| ==> r[i] == ZeroFrame(PadWidth(g))
  {
    if |g| < maxLen then g + seq(maxLen - |g|, _ => ZeroFrame(PadWidth(g)))
    else g[..SliceStop(maxLen, |g|)]
  }

  /** Padding law: a short grid survives unchanged as the head of the result,
      and every frame after it is all zeros, as wide as the grid's own frames. */
  lemma PadLaw(g: Grid, maxLen: int)
    requires |g| < maxLen
    ensures var r := PadOrTruncate(g, maxLen);
      && |r| == maxLen
      && r[..|g|] == g
      && (forall i :: |g| <= i < maxLen ==> |r[i]| == PadWidth(g))
      && (forall i, j :: |g| <= i < maxLen && 0 <= j < PadWidth(g) ==> r[i][j] == 0.0)
  {
    var r := PadOrTruncate(g, maxLen);
    assert r[..|g|] == g;
  }

  /** Truncation law: a grid at least `maxLen` long is cut to its first `maxLen` frames. */
  lemma TruncateLaw(g: Grid, maxLen: int)
    requires 0 <= maxLen <= |g|
    ensures PadOrTruncate(g, maxLen) == g[..maxLen]
  {
  }

  /** A negative `maxLen` takes the truncate branch, and Python's slice then drops that many
      frames from the end instead of keeping a fixed count. */
  lemma NegativeMaxLenDropsTail(g: Grid, maxLen: int)
    requires maxLen < 0
    ensures PadOrTruncate(g, maxLen) == g[..SliceStop(maxLen, |g|)]
    ensures |g| + maxLen >= 0 ==> PadOrTruncate(g, maxLen) == g[..|g| + maxLen]
    ensures |g| + maxLen < 0 ==> PadOrTruncate(g, maxLen) == []
  {
  }

  /** The padding rows take the grid's width, not the cepstral one: a one-coefficient
      frame padded to three frames gives three one-coefficient frames. */
  lemma NarrowGridPadsNarrow()
    ensures PadOrTruncate([[1.0]], 3) == [[1.0], [0.0], [0.0]]
  {
    var r := PadOrTruncate([[1.0]], 3);
    var z := ZeroFrame(1);
    assert z == [0.0] by { assert |z| == 1 && z[0] == 0.0; }
    assert r[1] == z && r[2] == z;
  }

  /** Padding adds frames, never coefficients: a non-empty grid of `w`-wide frames stays
      `w` wide, and an empty grid becomes 40 wide. */
  lemma WidthPreserved(g: Grid, maxLen: int, w: nat)
    requires HasWidth(g, w)
    requires |g| > 0 || w == NumMfcc
    ensures HasWidth(PadOrTruncate(g, maxLen), w)
  {
  }

  /** Normalising a normalised grid changes nothing, and a grid already `maxLen` long
      is returned as it is. */
  lemma Idempotent(g: Grid, maxLen: int)
    requires maxLen >= 0
    ensures PadOrTruncate(PadOrTruncate(g, maxLen), maxLen) == PadOrTruncate(g, maxLen)
    ensures |g| == maxLen ==> PadOrTruncate(g, maxLen) == g
  {
    var r := PadOrTruncate(g, maxLen);
    assert r[..maxLen] == r;
  }

  /** The coefficient names `MFCC_0` .. `MFCC_39`. */
  function FeatureNames(): (names: seq<string>)
    ensures |names| == NumMfcc
  {
    seq(NumMfcc, i => "MFCC_" + Decimal.Format(i))
  }

  /** Each name carries its own index after the `MFCC_` prefix. */
  lemma FeatureNameIndexed(i: nat)
    requires i < NumMfcc
    ensures FeatureNames()[i][..5] == "MFCC_" && Decimal.Parse(FeatureNames()[i][5..]) == Some(i)
    ensures FeatureNames()[i][5..] == Decimal.Format(i)
  {
    assert FeatureNames()[i][5..] == Decimal.Format(i);
    Decimal.ParseFormat(i);
  }

  /** No two coefficient names coincide, so the names label distinct columns. */
  lemma FeatureNamesDistinct(i: nat, j: nat)
    requires i < j < NumMfcc
    ensures FeatureNames()[i] != FeatureNames()[j]
  {
    FeatureNameIndexed(i);
    FeatureNameIndexed(j);
  }

  /** The extractor's result pair `(features, names)`: both present or both None. */
  type Extraction = (Option<Grid>, Option<seq<string>>)

  /** One call of the extractor: the decoder's grid, length-normalised, with the names;
      any decoding failure becomes `(None, None)`. */
  function ExtractAudioFeatures(decode: Decoder, path: string, sr: int, maxLen: int): (r: Extraction)
    ensures r.0.Some? <==> r.1.Some?
    ensures r.0.Some? <==> decode(path, sr).Some?
    ensures r.0.Some? && maxLen >= 0 ==> |r.0.value| == maxLen
    ensures r.0.Some? ==> forall i :: 0 <= i < |r.0.value| && i < |decode(path, sr).value| ==>
      r.0.value[i] == decode(path, sr).value[i]
    ensures r.0.Some? ==> forall i :: |decode(path, sr).value| <= i < |r.0.value| ==> r.0.value[i] == ZeroFrame(PadWidth(decode(path, sr).value))
    ensures r.0.Some? ==> r.0.value == PadOrTruncate(decode(path, sr).value, maxLen)
    ensures r.1.Some? ==> r.1.value == FeatureNames()
  {
    match decode(path, sr)
    case None => (None, None)
    case Some(mfccs) => (Some(PadOrTruncate(mfccs, maxLen)), Some(FeatureNames()))
  }

  /** Shape invariant: whatever the recording's duration, a successful extraction from an
      MFCC decoder is exactly `maxLen` frames of 40 coefficients. */
  lemma ExtractionShape(decode: Decoder, path: string, sr: int, maxLen: int)
    requires YieldsMfccFrames(decode)
    requires maxLen >= 0
    ensures var r := ExtractAudioFeatures(decode, path, sr, maxLen);
      r.0.Some? ==> |r.0.value| == maxLen && HasWidth(r.0.value, NumMfcc)
  {
    if decode(path, sr).Some? {
      WidthPreserved(decode(path, sr).value, maxLen, NumMfcc);
    }
  }
}

=== FILE: loader.dfy ===
/** Dataset path conventions and existence-gated lookups (src/data_processing/loader.py).
    The file system is an abstract set of existing paths; reading a CSV label table is
    an opaque function from a path to its rows. */
module Loader {
  import opened Wrappers
  import Decimal

  const Sep: char := '/'
  const LabelsDir := "Labels"
  const AudioDir := "audio"
  const LabelFileSuffix := "_split_Depression_AVEC2017.csv"
  const AudioFileSuffix := "_AUDIO.wav"

  /** One row of a label table: the join key and the binary depression label. */
  datatype LabelRow = LabelRow(participantId: int, phq8Binary: int)
  type LabelTable = seq<LabelRow>

  /** `pd.read_csv` of a path: the table's rows, or None when reading raises (an empty or
      malformed file, or a directory at that path). */
  type CsvReader = string -> Option<LabelTable>

  /** `os.path.join(a, b)` under POSIX rules: an absolute `b` replaces `a`; otherwise one
      separator is inserted unless `a` is empty or already ends with one. */
  function Join(a: string, b: string): (r: string)
    ensures |r| >= |b| && r[|r| - |b|..] == b
    ensures (|b| == 0 || b[0] != Sep) ==> |r| >= |a| && r[..|a|] == a
    ensures (|b| == 0 || b[0] != Sep) ==>
      |r| == |a| + |b| + (if |a| == 0 || a[|a| - 1] == Sep then 0 else 1)
    ensures (|b| == 0 || b[0] != Sep) && |a| > 0 && a[|a| - 1] != Sep ==> r[|a|] == Sep
    ensures |b| > 0 && b[0] == Sep ==> r == b
  {
    if |b| > 0 && b[0] == Sep then b
    else if |a| == 0 || a[|a| - 1] == Sep then a + b
    else a + [Sep] + b
  }

  predicate EndsWith(s: string, suffix: string) {
    |s| >= |suffix| && s[|s| - |suffix|..] == suffix
  }

  function LabelFileName(split: string): string {
    split + LabelFileSuffix
  }

  /** `base/Labels/{split}_split_Depression_AVEC2017.csv` */
  function LabelPath(base: string, split: string): string {
    Join(Join(base, LabelsDir), LabelFileName(split))
  }

  /** `{id}_AUDIO.wav` */
  function AudioFileName(participantId: int): string {
    Decimal.Format(participantId) + AudioFileSuffix
  }

  /** `base/audio/{id}_AUDIO.wav` */
  function AudioPath(base: string, participantId: int): string {
    Join(Join(base, AudioDir), AudioFileName(participantId))
  }

  /** How `load_split_data` ends: the table, None for a missing file, or the exception
      `pd.read_csv` raises, which escapes the function. */
  datatype SplitData = Table(rows: LabelTable) | Missing | Unreadable

  /** The label table of a split, read only when its file exists. */
  function LoadSplitData(existing: set<string>, readCsv: CsvReader, base: string, split: string): (r: SplitData)
    ensures r.Missing? <==> LabelPath(base, split) !in existing
    ensures r.Unreadable? <==> LabelPath(base, split) in existing && readCsv(LabelPath(base, split)).None?
    ensures r.Table? ==> Some(r.rows) == readCsv(LabelPath(base, split))
  {
    var csvPath := LabelPath(base, split);
    if csvPath !in existing then Missing
    else match readCsv(csvPath)
      case None => Unreadable
      case Some(df) => Table(df)
  }

  /** The audio path of a participant, returned only when that file exists. */
  function GetAudioPath(existing: set<string>, base: string, participantId: int): (r: Option<string>)
    ensures r.Some? <==> AudioPath(base, participantId) in existing
    ensures r.Some? ==> r.value == AudioPath(base, participantId)
    ensures r.Some? ==> r.value in existing && EndsWith(r.value, AudioFileName(participantId))
  {
    var audioPath := AudioPath(base, participantId);
    if audioPath in existing then Some(audioPath) else None
  }

  /** For a base without a trailing separator and a split that is not an absolute path,
      the label path is the base, `/Labels/`, the split and the fixed file suffix. */
  lemma LabelPathShape(base: string, split: string)
    requires |base| > 0 && base[|base| - 1] != Sep
    requires |split| == 0 || split[0] != Sep
    ensures LabelPath(base, split) == base + "/Labels/" + split + "_split_Depression_AVEC2017.csv"
  {
    JoinInsertsSeparator(base, LabelsDir);
    var dir := base + [Sep] + LabelsDir;
    assert dir[|dir| - 1] == 's';
    JoinInsertsSeparator(dir, LabelFileName(split));
    SeparatedDirLiteral();
    assert dir + [Sep] + (split + LabelFileSuffix) == base + ([Sep] + LabelsDir + [Sep]) + split + LabelFileSuffix;
  }

  lemma SeparatedDirLiteral()
    ensures [Sep] + LabelsDir + [Sep] == "/Labels/"
    ensures [Sep] + AudioDir + [Sep] == "/audio/"
  {
  }

  /** A split that starts with a separator is itself absolute, and `os.path.join` then
      discards the base and the `Labels` directory. */
  lemma AbsoluteSplitDiscardsBase(base: string, split: string)
    requires |split| > 0 && split[0] == Sep
    ensures LabelPath(base, split) == split + "_split_Depression_AVEC2017.csv"
  {
  }

  /** Joining a relative component onto a non-empty directory without a trailing separator
      inserts exactly one separator. */
  lemma JoinInsertsSeparator(a: string, b: string)
    requires |a| > 0 && a[|a| - 1] != Sep
    requires |b| == 0 || b[0] != Sep
    ensures Join(a, b) == a + [Sep] + b
  {
  }

  /** For every base, the audio path is the `audio` directory under it, one separator,
      then `{id}_AUDIO.wav`; with a base that has no trailing separator that reads
      `base/audio/{id}_AUDIO.wav`. */
  lemma AudioPathShape(base: string, participantId: int)
    ensures AudioPath(base, participantId) == Join(base, AudioDir) + "/" + AudioFileName(participantId)
    ensures |base| > 0 && base[|base| - 1] != Sep ==>
      AudioPath(base, participantId) == base + "/audio/" + Decimal.Format(participantId) + "_AUDIO.wav"
  {
    var dir := Join(base, AudioDir);
    var digits := Decimal.Format(participantId);
    var f := AudioFileName(participantId);
    assert dir == base + AudioDir || dir == base + [Sep] + AudioDir;
    assert dir[|dir| - 1] == 'o';
    assert f[0] == digits[0];
    JoinInsertsSeparator(dir, f);
    if |base| > 0 && base[|base| - 1] != Sep {
      JoinInsertsSeparator(base, AudioDir);
      SeparatedDirLiteral();
      assert base + [Sep] + AudioDir + [Sep] + (digits + AudioFileSuffix)
          == base + ([Sep] + AudioDir + [Sep]) + digits + AudioFileSuffix;
    }
  }

  /** Different participants never share an audio path under the same base. */
  lemma AudioPathInjective(base: string, a: int, b: int)
    requires a != b
    ensures AudioPath(base, a) != AudioPath(base, b)
  {
    AudioPathShape(base, a);
    AudioPathShape(base, b);
    var dir := Join(base, AudioDir) + "/";
    if AudioPath(base, a) == AudioPath(base, b) {
      assert AudioFileName(a) == AudioPath(base, a)[|dir|..];
      assert Decimal.Format(a) == AudioFileName(a)[..|AudioFileName(a)| - |AudioFileSuffix|];
      assert Decimal.Format(b) == AudioFileName(b)[..|AudioFileName(b)| - |AudioFileSuffix|];
      Decimal.FormatInjective(a, b);
      assert false;
    }
  }
}

=== FILE: prediction.dfy ===
/** The risk decision for one uploaded recording (`predict_risk` in src/ui/prediction.py).
    The saved network is opaque: `forward` is its output on a one-example batch, the pair
    `[P(low), P(high)]`, and `modelLoads` says whether loading the saved model succeeds.
    Writing the upload to a temporary file and every widget are outside the model. */
module Prediction {
  import opened Wrappers
  import Features
  import Trainer

  /** The upload is written here before extraction. */
  const TempPath := "temp_audio.wav"

  datatype Risk = Low | High {
    /** The text shown for the risk. */
    function Label(): string {
      if High? then "HIGH" else "LOW"
    }
  }

  /** `numpy.argmax`: the position of the largest entry, the first one on a tie. */
  function Argmax(p: seq<real>): (k: nat)
    requires |p| > 0
    ensures k < |p|
    ensures forall j :: 0 <= j < |p| ==> p[j] <= p[k]
    ensures forall j :: 0 <= j < k ==> p[j] < p[k]
  {
    ArgmaxFrom(p, 1, 0)
  }

  /** Scans `p[i..]` with `best` the first maximum of `p[..i]`. */
  function ArgmaxFrom(p: seq<real>, i: nat, best: nat): (k: nat)
    requires best < i <= |p|
    requires forall j :: 0 <= j < i ==> p[j] <= p[best]
    requires forall j :: 0 <= j < best ==> p[j] < p[best]
    ensures k < |p|
    ensures forall j :: 0 <= j < |p| ==> p[j] <= p[k]
    ensures forall j :: 0 <= j < k ==> p[j] < p[k]
    decreases |p| - i
  {
    if i == |p| then best
    else if p[i] > p[best] then ArgmaxFrom(p, i + 1, i)
    else ArgmaxFrom(p, i + 1, best)
  }

  /** The first-maximum rule picks a single index: any index that is a maximum and beats
      every earlier entry is the one `Argmax` returns. */
  lemma ArgmaxUnique(p: seq<real>, k: nat)
    requires k < |p|
    requires forall j :: 0 <= j < |p| ==> p[j] <= p[k]
    requires forall j :: 0 <= j < k ==> p[j] < p[k]
    ensures Argmax(p) == k
  {
  }

  /** How a prediction request ends. */
  datatype PredictOutcome =
    | ModelNotTrained
    | FeaturesUnavailable
    | ModelLoadFailed
    | Predicted(batch: seq<Features.Grid>, prediction: nat, confidence: real, risk: Risk, heatmap: Features.Grid)

  /** The control flow and decision rule of `predict_risk`: stop when no model is saved,
      stop when extraction fails, stop when loading fails; otherwise take the first-maximum
      class of the two probabilities, its probability as the confidence, and hand the
      extracted grid back for the heatmap. */
  function PredictRisk(existing: set<string>, decode: Features.Decoder, modelLoads: bool,
                       forward: seq<Features.Grid> -> (real, real), maxLen: int): (r: PredictOutcome)
    ensures Trainer.ModelPath !in existing <==> r == ModelNotTrained
    ensures r == FeaturesUnavailable <==>
      Trainer.ModelPath in existing && decode(TempPath, Features.DefaultSampleRate).None?
    ensures r == ModelLoadFailed <==>
      Trainer.ModelPath in existing && decode(TempPath, Features.DefaultSampleRate).Some? && !modelLoads
    ensures r.Predicted? ==>
      var (pLow, pHigh) := forward(r.batch);
      && |r.batch| == 1
      && r.batch[0] == r.heatmap
      && Features.ExtractAudioFeatures(decode, TempPath, Features.DefaultSampleRate, maxLen).0 == Some(r.heatmap)
      && r.prediction < 2
      && r.confidence == (if r.prediction == 0 then pLow else pHigh)
      && r.confidence >= pLow && r.confidence >= pHigh
      && (r.prediction == 1 <==> pHigh > pLow)
      && (r.risk == High <==> r.prediction == 1)
  {
    if Trainer.ModelPath !in existing then ModelNotTrained
    else
      var (features, _) := Features.ExtractAudioFeatures(decode, TempPath, Features.DefaultSampleRate, maxLen);
      if features.None? then FeaturesUnavailable
      else
        var batch := [features.value];
        if !modelLoads then ModelLoadFailed
        else
          var (pLow, pHigh) := forward(batch);
          var riskProb := [pLow, pHigh];
          var prediction := Argmax(riskProb);
          var confidence := riskProb[prediction];
          Predicted(batch, prediction, confidence, if prediction == 1 then High else Low, batch[0])
  }

  /** A tie between the two classes is read as low risk with the shared probability. */
  lemma TieBreaksLow(existing: set<string>, decode: Features.Decoder, forward: seq<Features.Grid> -> (real, real), maxLen: int)
    requires Trainer.ModelPath in existing
    requires decode(TempPath, Features.DefaultSampleRate).Some?
    requires forall b :: forward(b).0 == forward(b).1
    ensures var r := PredictRisk(existing, decode, true, forward, maxLen);
      r.Predicted? && r.risk == Low && r.risk.Label() == "LOW" && r.confidence == forward(r.batch).0
  {
  }

  /** When the network outputs a probability distribution, the confidence is at least one half. */
  lemma ConfidenceBounds(existing: set<string>, decode: Features.Decoder, modelLoads: bool,
                         forward: seq<Features.Grid> -> (real, real), maxLen: int)
    requires forall b :: 0.0 <= forward(b).0 && 0.0 <= forward(b).1 && forward(b).0 + forward(b).1 == 1.0
    ensures var r := PredictRisk(existing, decode, modelLoads, forward, maxLen);
      r.Predicted? ==> 0.5 <= r.confidence <= 1.0
  {
  }

  /** The decision rule inverts the training encoding: the argmax of a one-hot label row is the label. */
  lemma ArgmaxOfOneHot(target: int)
    requires Trainer.IsBinary(target)
    ensures Argmax(Trainer.OneHotRow(target)) == target
  {
    ArgmaxUnique(Trainer.OneHotRow(target), target as nat);
  }

  /** Training examples and the prediction input have the same shape, `maxLen` frames of
      40 coefficients, because both come from the same extractor with the same `maxLen`. */
  lemma TrainAndPredictShapesAgree(existing: set<string>, modelLoads: bool,
                                   forward: seq<Features.Grid> -> (real, real), env: Trainer.Env, name: string)
    requires Features.YieldsMfccFrames(env.decode)
    requires env.maxLen >= 0
    requires Trainer.ProcessFile(env, name).Example?
    ensures var r := PredictRisk(existing, env.decode, modelLoads, forward, env.maxLen);
      r.Predicted? ==>
        && |r.heatmap| == |Trainer.ProcessFile(env, name).features| == env.maxLen
        && Features.HasWidth(r.heatmap, Features.NumMfcc)
  {
    Trainer.ExampleShape(env, name);
    Features.ExtractionShape(env.decode, TempPath, Features.DefaultSampleRate, env.maxLen);
  }
}

=== FILE: trainer.dfy ===
/** Training-set assembly (`train_model` in src/model/trainer.py).
    The label table, the audio directory listing and the feature decoder are inputs; the
    network, fitting and saving the model are outside the model. What is modelled is the
    choice of files, the join to labels, the per-file skip rules, the order and count of
    the examples, the one-hot labels and the status the function reports. */
module Trainer {
  import opened Wrappers
  import Decimal
  import Loader
  import Features

  /** Where the trained network is saved and where prediction looks for it. */
  const ModelPath := "models/depression_model.keras"
  const TrainLabelFile := "train_split_Depression_AVEC2017.csv"

  const LabelsMissingStatus := "Labels file not found."
  const NoDataStatus := "No training data found."
  const CompleteStatus := "Training Complete (CNN-BiLSTM)"

  /** The label file `train_model` opens: always the train split under the base. */
  function TrainLabelPath(base: string): string {
    Loader.Join(Loader.Join(base, Loader.LabelsDir), TrainLabelFile)
  }

  /** The directory whose listing supplies the audio files. */
  function AudioDirPath(base: string): string {
    Loader.Join(base, Loader.AudioDir)
  }

  /** The names in a directory listing that end in `_AUDIO.wav`, in listing order. */
  function AudioFiles(listing: seq<string>): (files: seq<string>)
    ensures |files| <= |listing|
    ensures forall i :: 0 <= i < |files| ==> Loader.EndsWith(files[i], Loader.AudioFileSuffix)
    decreases |listing|
  {
    if |listing| == 0 then []
    else
      var rest := AudioFiles(listing[1..]);
      if Loader.EndsWith(listing[0], Loader.AudioFileSuffix) then [listing[0]] + rest else rest
  }

  /** The filter keeps exactly the `_AUDIO.wav` names of the listing, each as often as it
      is listed, and drops every other name. */
  lemma {:induction false} AudioFilesSelection(listing: seq<string>)
    ensures forall f :: f in AudioFiles(listing) <==> f in listing && Loader.EndsWith(f, Loader.AudioFileSuffix)
    ensures forall f :: (multiset(AudioFiles(listing))[f] ==
      if Loader.EndsWith(f, Loader.AudioFileSuffix) then multiset(listing)[f] else 0)
    decreases |listing|
  {
    if |listing| > 0 {
      AudioFilesSelection(listing[1..]);
      assert listing == [listing[0]] + listing[1..];
    }
  }

  /** `name.split('_')[0]`: the text before the first underscore, or all of it when there is none. */
  function IdPrefix(name: string): (p: string)
    ensures '_' !in p
    ensures |p| <= |name| && name[..|p|] == p
    ensures |p| < |name| ==> name[|p|] == '_'
    decreases |name|
  {
    if |name| == 0 || name[0] == '_' then "" else [name[0]] + IdPrefix(name[1..])
  }

  /** The participant id a file name encodes; None where `int(...)` would raise. */
  function ParticipantId(name: string): Option<int> {
    Decimal.Parse(IdPrefix(name))
  }

  /** The position of the first row whose `Participant_ID` is `id` (`row.iloc[0]`),
      searching from row `k`. */
  function FirstRowFrom(table: Loader.LabelTable, id: int, k: nat): (r: Option<nat>)
    requires k <= |table|
    ensures r.None? <==> forall i :: k <= i < |table| ==> table[i].participantId != id
    ensures r.Some? ==> k <= r.value < |table| && table[r.value].participantId == id
    ensures r.Some? ==> forall i :: k <= i < r.value ==> table[i].participantId != id
    decreases |table| - k
  {
    if k == |table| then None
    else if table[k].participantId == id then Some(k)
    else FirstRowFrom(table, id, k + 1)
  }

  /** The `PHQ8_Binary` of the first row for `id`, or None when no row matches. */
  function FirstLabel(table: Loader.LabelTable, id: int): (r: Option<int>)
    ensures r.None? <==> forall i :: 0 <= i < |table| ==> table[i].participantId != id
    ensures r.Some? ==> exists i :: (0 <= i < |table| && table[i].participantId == id && table[i].phq8Binary == r.value
      && forall j :: 0 <= j < i ==> table[j].participantId != id)
  {
    match FirstRowFrom(table, id, 0)
    case None => None
    case Some(i) => Some(table[i].phq8Binary)
  }

  /** What each file is read against: the label table, the decoder behind the feature
      extractor, the audio directory and the frame count of every example. */
  datatype Env = Env(table: Loader.LabelTable, decode: Features.Decoder, audioDir: string, maxLen: int)

  /** Why a file contributed no example. */
  datatype Skip = BadParticipantId | NoLabelRow | ExtractionFailed

  datatype FileResult = Skipped(reason: Skip) | Example(features: Features.Grid, target: int)

  /** The features the extractor returns for a file of the audio directory. */
  function FileFeatures(env: Env, name: string): Option<Features.Grid> {
    Features.ExtractAudioFeatures(env.decode, Loader.Join(env.audioDir, name), Features.DefaultSampleRate, env.maxLen).0
  }

  /** One pass of the loop body: parse the id, join it to its first label row, extract the
      features; each failure skips the file. */
  function ProcessFile(env: Env, name: string): FileResult {
    match ParticipantId(name)
    case None => Skipped(BadParticipantId)
    case Some(pId) =>
      match FirstLabel(env.table, pId)
      case None => Skipped(NoLabelRow)
      case Some(val) =>
        match FileFeatures(env, name)
        case None => Skipped(ExtractionFailed)
        case Some(feats) => Example(feats, val)
  }

  /** The skip rules of one file: each reason holds exactly when its check fails, and an
      example carries the label of the first row with the file's id and the extracted grid. */
  lemma ProcessFileSpec(env: Env, name: string)
    ensures ProcessFile(env, name) == Skipped(BadParticipantId) <==> ParticipantId(name).None?
    ensures ProcessFile(env, name) == Skipped(NoLabelRow) <==>
      ParticipantId(name).Some? && forall i :: 0 <= i < |env.table| ==> env.table[i].participantId != ParticipantId(name).value
    ensures ProcessFile(env, name).Example? <==>
      && ParticipantId(name).Some?
      && (exists i :: 0 <= i < |env.table| && env.table[i].participantId == ParticipantId(name).value)
      && FileFeatures(env, name).Some?
    ensures ProcessFile(env, name).Example? ==>
      exists i :: (0 <= i < |env.table| && env.table[i].participantId == ParticipantId(name).value
        && env.table[i].phq8Binary == ProcessFile(env, name).target
        && forall j :: 0 <= j < i ==> env.table[j].participantId != ParticipantId(name).value)
    ensures ProcessFile(env, name).Example? ==> Some(ProcessFile(env, name).features) == FileFeatures(env, name)
  {
  }

  /** The outcome of every listed file, in listing order. */
  function Outcomes(env: Env, files: seq<string>): (results: seq<FileResult>)
    ensures |results| == |files|
    ensures forall i {:trigger ProcessFile(env, files[i])} :: 0 <= i < |files| ==> results[i] == ProcessFile(env, files[i])
    decreases |files|
  {
    if |files| == 0 then [] else Outcomes(env, files[..|files| - 1]) + [ProcessFile(env, files[|files| - 1])]
  }

  /** The positions among the first `n` outcomes that are examples, in increasing order. */
  function KeptIndices(results: seq<FileResult>, n: nat): (idx: seq<nat>)
    requires n <= |results|
    ensures |idx| <= n
    ensures forall k :: 0 <= k < |idx| ==> idx[k] < n && results[idx[k]].Example?
    ensures forall k, l :: 0 <= k < l < |idx| ==> idx[k] < idx[l]
    ensures forall i :: 0 <= i < n && results[i].Example? ==> i in idx
    decreases n
  {
    if n == 0 then []
    else KeptIndices(results, n - 1) + (if results[n - 1].Example? then [n - 1] else [])
  }

  /** X and y hold, in order, the features and label of the outcomes at the positions `idx`. */
  predicate Collected(results: seq<FileResult>, idx: seq<nat>, X: seq<Features.Grid>, y: seq<int>) {
    && |X| == |y| == |idx|
    && forall k :: 0 <= k < |idx| ==> idx[k] < |results| && results[idx[k]] == Example(X[k], y[k])
  }

  lemma KeptIndicesStep(results: seq<FileResult>, i: nat)
    requires i < |results|
    ensures KeptIndices(results, i + 1) == KeptIndices(results, i) + (if results[i].Example? then [i] else [])
  {
  }

  lemma CollectedStep(results: seq<FileResult>, idx: seq<nat>, X: seq<Features.Grid>, y: seq<int>, i: nat)
    requires Collected(results, idx, X, y)
    requires i < |results| && results[i].Example?
    ensures Collected(results, idx + [i], X + [results[i].features], y + [results[i].target])
  {
  }

  /** The features of the examples among the first `n` outcomes, in listing order. */
  function ExampleFeatures(results: seq<FileResult>, n: nat): (X: seq<Features.Grid>)
    requires n <= |results|
    ensures |X| <= n
    decreases n
  {
    if n == 0 then []
    else ExampleFeatures(results, n - 1) + (if results[n - 1].Example? then [results[n - 1].features] else [])
  }

  /** The labels of the examples among the first `n` outcomes, one per example feature grid. */
  function ExampleTargets(results: seq<FileResult>, n: nat): (y: seq<int>)
    requires n <= |results|
    ensures |y| == |ExampleFeatures(results, n)|
    decreases n
  {
    if n == 0 then []
    else ExampleTargets(results, n - 1) + (if results[n - 1].Example? then [results[n - 1].target] else [])
  }

  /** The collected features and labels are exactly the examples at the kept positions:
      every example file contributes once, in listing order, and nothing else does. */
  lemma {:induction false} ExamplesCollected(results: seq<FileResult>, n: nat)
    requires n <= |results|
    ensures Collected(results, KeptIndices(results, n), ExampleFeatures(results, n), ExampleTargets(results, n))
    decreases n
  {
    if n > 0 {
      ExamplesCollected(results, n - 1);
      KeptIndicesStep(results, n - 1);
      if results[n - 1].Example? {
        CollectedStep(results, KeptIndices(results, n - 1), ExampleFeatures(results, n - 1), ExampleTargets(results, n - 1), n - 1);
      }
    }
  }

  /** The loop over the audio files: X and y grow together, one entry per file that
      survives, in file order, and the counter counts them. */
  method AssembleExamples(env: Env, files: seq<string>) returns (X: seq<Features.Grid>, y: seq<int>, processedCount: nat)
    ensures X == ExampleFeatures(Outcomes(env, files), |files|)
    ensures y == ExampleTargets(Outcomes(env, files), |files|)
    ensures processedCount == |X| <= |files|
  {
    ghost var results := Outcomes(env, files);
    X, y, processedCount := [], [], 0;
    for i := 0 to |files|
      invariant X == ExampleFeatures(results, i)
      invariant y == ExampleTargets(results, i)
      invariant processedCount == |X|
    {
      var outcome := ProcessFile(env, files[i]);
      if outcome.Example? {
        X := X + [outcome.features];
        y := y + [outcome.target];
        processedCount := processedCount + 1;
      }
    }
  }

  /** A label is binary when it is a class index of the two-class encoding. */
  predicate IsBinary(target: int) {
    target == 0 || target == 1
  }

  /** `row` is the one-hot vector of class `target`. */
  predicate IsOneHot(row: seq<real>, target: int) {
    IsBinary(target) && |row| == 2 && row[target] == 1.0 && row[1 - target] == 0.0
  }

  function OneHotRow(target: int): seq<real>
    requires IsBinary(target)
  {
    if target == 0 then [1.0, 0.0] else [0.0, 1.0]
  }

  /** `to_categorical(y, num_classes=2)`: N labels become N two-entry one-hot rows; a label
      outside {0, 1} makes the encoding fail. */
  function ToCategorical(labels: seq<int>): (r: Option<seq<seq<real>>>)
    ensures r.Some? <==> forall i :: 0 <= i < |labels| ==> IsBinary(labels[i])
    ensures r.Some? ==> |r.value| == |labels| && forall i :: 0 <= i < |labels| ==> IsOneHot(r.value[i], labels[i])
  {
    if forall i :: 0 <= i < |labels| ==> IsBinary(labels[i]) then
      Some(seq(|labels|, i requires 0 <= i < |labels| => OneHotRow(labels[i])))
    else None
  }

  /** `np.array(X)` stacks the grids into one N by T by W array: every grid has the same
      number of frames and every frame the same width. Otherwise numpy raises. */
  predicate Stackable(X: seq<Features.Grid>) {
    forall k :: 0 <= k < |X| ==> |X[k]| == |X[0]| && Features.HasWidth(X[k], FrameWidth(X))
  }

  /** The width of the first frame of the first grid, the width every frame must share. */
  function FrameWidth(X: seq<Features.Grid>): nat {
    if |X| > 0 && |X[0]| > 0 then |X[0][0]| else 0
  }

  /** How a training run ends. The first three return a status string; the others are
      exceptions escaping `train_model`. */
  datatype TrainOutcome =
    | LabelsFileNotFound
    | NoTrainingData
    | Trained(X: seq<Features.Grid>, y: seq<seq<real>>)
    | LabelsUnreadable
    | AudioDirUnreadable
    | RaggedExamples
    | LabelNotBinary

  /** The status string returned to the caller, when the run returns normally. `fitted`
      says whether building, fitting and saving the network on a `Trained` outcome return
      normally; when they raise (too few examples for the validation split, say) no string
      is returned. */
  function Status(outcome: TrainOutcome, fitted: bool): (s: Option<string>)
    ensures s.Some? <==> outcome.LabelsFileNotFound? || outcome.NoTrainingData? || (outcome.Trained? && fitted)
    ensures s == Some(LabelsMissingStatus) <==> outcome.LabelsFileNotFound?
    ensures s == Some(NoDataStatus) <==> outcome.NoTrainingData?
    ensures s == Some(CompleteStatus) <==> outcome.Trained? && fitted
  {
    match outcome
    case LabelsFileNotFound => Some(LabelsMissingStatus)
    case NoTrainingData => Some(NoDataStatus)
    case Trained(_, _) => if fitted then Some(CompleteStatus) else None
    case LabelsUnreadable => None
    case AudioDirUnreadable => None
    case RaggedExamples => None
    case LabelNotBinary => None
  }

  /** What the files of a run are read against: the train-split label table, the decoder,
      the audio directory under the base and the frame count. */
  function TrainEnv(table: Loader.LabelTable, base: string, decode: Features.Decoder, maxLen: int): Env {
    Env(table, decode, AudioDirPath(base), maxLen)
  }

  /** A run gets as far as its loop: the label file exists and reads, and the audio
      directory lists. */
  predicate Readable(base: string, existing: set<string>, readCsv: Loader.CsvReader, listDir: string -> Option<seq<string>>) {
    && TrainLabelPath(base) in existing
    && readCsv(TrainLabelPath(base)).Some?
    && listDir(AudioDirPath(base)).Some?
  }

  /** The outcome of every listed file of a run that gets as far as its loop. */
  function RunResults(base: string, readCsv: Loader.CsvReader, listDir: string -> Option<seq<string>>,
                      decode: Features.Decoder, maxLen: int): seq<FileResult>
    requires readCsv(TrainLabelPath(base)).Some? && listDir(AudioDirPath(base)).Some?
  {
    RunOutcomes(TrainEnv(readCsv(TrainLabelPath(base)).value, base, decode, maxLen), listDir(AudioDirPath(base)).value)
  }

  /** One pass over the raw listing that filters and processes together: a name that is
      not `_AUDIO.wav` adds nothing, any other adds its outcome. */
  function RunOutcomes(env: Env, listing: seq<string>): seq<FileResult>
    decreases |listing|
  {
    if |listing| == 0 then []
    else
      (if Loader.EndsWith(listing[0], Loader.AudioFileSuffix) then [ProcessFile(env, listing[0])] else [])
      + RunOutcomes(env, listing[1..])
  }

  lemma OutcomesCons(env: Env, name: string, files: seq<string>)
    ensures Outcomes(env, [name] + files) == [ProcessFile(env, name)] + Outcomes(env, files)
  {
    var lhs := Outcomes(env, [name] + files);
    var rhs := [ProcessFile(env, name)] + Outcomes(env, files);
    assert |lhs| == |rhs|;
    forall i | 0 <= i < |lhs|
      ensures lhs[i] == rhs[i]
    {
      assert lhs[i] == ProcessFile(env, ([name] + files)[i]);
      if i > 0 {
        assert ([name] + files)[i] == files[i - 1];
      }
    }
  }

  /** The one-pass reading agrees with the trainer's two steps: first keep the
      `_AUDIO.wav` names, then process each kept file in order. */
  lemma {:induction false} RunOutcomesAgree(env: Env, listing: seq<string>)
    ensures RunOutcomes(env, listing) == Outcomes(env, AudioFiles(listing))
    decreases |listing|
  {
    if |listing| > 0 {
      RunOutcomesAgree(env, listing[1..]);
      if Loader.EndsWith(listing[0], Loader.AudioFileSuffix) {
        OutcomesCons(env, listing[0], AudioFiles(listing[1..]));
      }
    }
  }

  /** Pairs the collected examples with their one-hot labels: the rows of X and Y are, in
      listing order, the features and encoded labels of exactly the outcomes that are examples. */
  lemma EncodedTrainingSet(results: seq<FileResult>, Y: seq<seq<real>>)
    requires ToCategorical(ExampleTargets(results, |results|)) == Some(Y)
    ensures |ExampleFeatures(results, |results|)| == |Y| == |KeptIndices(results, |results|)|
    ensures forall k :: 0 <= k < |KeptIndices(results, |results|)| ==>
      && results[KeptIndices(results, |results|)[k]].Example?
      && results[KeptIndices(results, |results|)[k]].features == ExampleFeatures(results, |results|)[k]
      && IsOneHot(Y[k], results[KeptIndices(results, |results|)[k]].target)
  {
    ExamplesCollected(results, |results|);
  }

  /** Every example of a run has `maxLen` frames. */
  lemma {:induction false} ExamplesHaveMaxLenFrames(env: Env, files: seq<string>, n: nat)
    requires env.maxLen >= 0 && n <= |files|
    ensures forall k :: 0 <= k < |ExampleFeatures(Outcomes(env, files), n)| ==>
      |ExampleFeatures(Outcomes(env, files), n)[k]| == env.maxLen
    decreases n
  {
    if n > 0 {
      ExamplesHaveMaxLenFrames(env, files, n - 1);
      assert Outcomes(env, files)[n - 1] == ProcessFile(env, files[n - 1]);
    }
  }

  /** Every example of a run from an MFCC decoder is `maxLen` frames of 40 coefficients. */
  lemma {:induction false} ExamplesHaveMfccShape(env: Env, files: seq<string>, n: nat)
    requires env.maxLen >= 0 && Features.YieldsMfccFrames(env.decode) && n <= |files|
    ensures forall k :: 0 <= k < |ExampleFeatures(Outcomes(env, files), n)| ==>
      && |ExampleFeatures(Outcomes(env, files), n)[k]| == env.maxLen
      && Features.HasWidth(ExampleFeatures(Outcomes(env, files), n)[k], Features.NumMfcc)
    decreases n
  {
    if n > 0 {
      ExamplesHaveMfccShape(env, files, n - 1);
      assert Outcomes(env, files)[n - 1] == ProcessFile(env, files[n - 1]);
      if ProcessFile(env, files[n - 1]).Example? {
        ExampleShape(env, files[n - 1]);
      }
    }
  }

  /** With a non-negative `max_len` and an MFCC decoder, as the trainer is configured, the
      examples always stack, so a run never fails at `np.array`. */
  lemma ConfiguredRunsStack(base: string, readCsv: Loader.CsvReader, listDir: string -> Option<seq<string>>,
                            decode: Features.Decoder, maxLen: int)
    requires readCsv(TrainLabelPath(base)).Some? && listDir(AudioDirPath(base)).Some?
    requires maxLen >= 0 && Features.YieldsMfccFrames(decode)
    ensures var results := RunResults(base, readCsv, listDir, decode, maxLen);
      Stackable(ExampleFeatures(results, |results|))
  {
    var env := TrainEnv(readCsv(TrainLabelPath(base)).value, base, decode, maxLen);
    var listing := listDir(AudioDirPath(base)).value;
    RunOutcomesAgree(env, listing);
    ExamplesHaveMfccShape(env, AudioFiles(listing), |AudioFiles(listing)|);
  }

  /** The data-preparation half of `train_model`: find and read the labels, list the audio
      files, collect the examples, refuse an empty set, stack them, one-hot encode the labels. */
  method TrainModel(base: string, existing: set<string>, readCsv: Loader.CsvReader,
                    listDir: string -> Option<seq<string>>, decode: Features.Decoder, maxLen: int)
    returns (outcome: TrainOutcome)
    ensures TrainLabelPath(base) !in existing <==> outcome == LabelsFileNotFound
    ensures TrainLabelPath(base) in existing && readCsv(TrainLabelPath(base)).None? <==> outcome == LabelsUnreadable
    ensures outcome == AudioDirUnreadable <==>
      TrainLabelPath(base) in existing && readCsv(TrainLabelPath(base)).Some? && listDir(AudioDirPath(base)).None?
    ensures outcome == NoTrainingData <==>
      && Readable(base, existing, readCsv, listDir)
      && var results := RunResults(base, readCsv, listDir, decode, maxLen);
         ExampleFeatures(results, |results|) == []
    ensures outcome == RaggedExamples <==>
      && Readable(base, existing, readCsv, listDir)
      && var results := RunResults(base, readCsv, listDir, decode, maxLen);
         ExampleFeatures(results, |results|) != [] && !Stackable(ExampleFeatures(results, |results|))
    ensures outcome == LabelNotBinary <==>
      && Readable(base, existing, readCsv, listDir)
      && var results := RunResults(base, readCsv, listDir, decode, maxLen);
         && ExampleFeatures(results, |results|) != [] && Stackable(ExampleFeatures(results, |results|))
         && ToCategorical(ExampleTargets(results, |results|)).None?
    ensures outcome.Trained? ==>
      && Readable(base, existing, readCsv, listDir)
      && var results := RunResults(base, readCsv, listDir, decode, maxLen);
         && outcome.X == ExampleFeatures(results, |results|) != []
         && Stackable(outcome.X)
         && ToCategorical(ExampleTargets(results, |results|)) == Some(outcome.y)
    ensures outcome.Trained? && maxLen >= 0 ==> forall k :: 0 <= k < |outcome.X| ==> |outcome.X[k]| == maxLen
  {
    var csvPath := TrainLabelPath(base);
    if csvPath !in existing {
      return LabelsFileNotFound;
    }
    var trainDf := readCsv(csvPath);
    if trainDf.None? {
      return LabelsUnreadable;
    }
    var audioDir := AudioDirPath(base);
    var listing := listDir(audioDir);
    if listing.None? {
      return AudioDirUnreadable;
    }
    var availableFiles := AudioFiles(listing.value);
    var env := Env(trainDf.value, decode, audioDir, maxLen);
    var X, y, processedCount := AssembleExamples(env, availableFiles);
    RunOutcomesAgree(env, listing.value);
    if |X| == 0 {
      return NoTrainingData;
    }
    if !Stackable(X) {
      return RaggedExamples;
    }
    var encoded := ToCategorical(y);
    if encoded.None? {
      return LabelNotBinary;
    }
    if maxLen >= 0 {
      ExamplesHaveMaxLenFrames(env, availableFiles, |availableFiles|);
    }
    return Trained(X, encoded.value);
  }

  /** The trainer opens the same label file the loader builds for the train split. */
  lemma TrainLabelPathIsLoaderPath(base: string)
    ensures TrainLabelPath(base) == Loader.LabelPath(base, "train")
  {
    TrainLabelFileName();
  }

  lemma TrainLabelFileName()
    ensures "train" + "_split_Depression_AVEC2017.csv" == "train_split_Depression_AVEC2017.csv"
  {
  }

  /** Round trip between the two naming conventions: the loader's file name for any id
      passes the trainer's suffix filter and its prefix parses back to that id. */
  lemma AudioFileNameRoundTrip(participantId: int)
    ensures Loader.EndsWith(Loader.AudioFileName(participantId), Loader.AudioFileSuffix)
    ensures IdPrefix(Loader.AudioFileName(participantId)) == Decimal.Format(participantId)
    ensures ParticipantId(Loader.AudioFileName(participantId)) == Some(participantId)
  {
    var digits := Decimal.Format(participantId);
    var name := Loader.AudioFileName(participantId);
    assert name[..|digits|] == digits;
    assert name[|digits|] == '_';
    IdPrefixBeforeUnderscore(digits, Loader.AudioFileSuffix);
    Decimal.ParseFormat(participantId);
  }

  lemma {:induction false} IdPrefixBeforeUnderscore(a: string, b: string)
    requires '_' !in a
    requires |b| > 0 && b[0] == '_'
    ensures IdPrefix(a + b) == a
    decreases |a|
  {
    if |a| > 0 {
      assert (a + b)[1..] == a[1..] + b;
      IdPrefixBeforeUnderscore(a[1..], b);
      assert a == [a[0]] + a[1..];
    } else {
      assert (a + b)[0] == '_';
    }
  }

  /** The path the trainer extracts for a listed `{id}_AUDIO.wav` is the loader's audio path for that id. */
  lemma AudioPathAgreesWithLoader(base: string, participantId: int)
    ensures Loader.Join(AudioDirPath(base), Loader.AudioFileName(participantId)) == Loader.AudioPath(base, participantId)
  {
  }

  /** Every example is a `maxLen` by 40 grid, so the stacked tensor is N x maxLen x 40. */
  lemma ExampleShape(env: Env, name: string)
    requires Features.YieldsMfccFrames(env.decode)
    requires env.maxLen >= 0
    requires ProcessFile(env, name).Example?
    ensures |ProcessFile(env, name).features| == env.maxLen
    ensures Features.HasWidth(ProcessFile(env, name).features, Features.NumMfcc)
  {
    Features.ExtractionShape(env.decode, Loader.Join(env.audioDir, name), Features.DefaultSampleRate, env.maxLen);
  }

  /** Join correctness: a file contributes exactly when its id parses, some label row carries
      that id and extraction succeeds; files that are not `_AUDIO.wav` never contribute. */
  lemma ExampleIffLabelled(env: Env, listing: seq<string>, i: nat)
    requires i < |AudioFiles(listing)|
    ensures var f := AudioFiles(listing)[i];
      && f in listing && Loader.EndsWith(f, Loader.AudioFileSuffix)
      && (i in KeptIndices(Outcomes(env, AudioFiles(listing)), |AudioFiles(listing)|) <==>
            && ParticipantId(f).Some?
            && (exists j :: 0 <= j < |env.table| && env.table[j].participantId == ParticipantId(f).value)
            && FileFeatures(env, f).Some?)
  {
    var files := AudioFiles(listing);
    AudioFilesSelection(listing);
    assert files[i] in files;
    ProcessFileSpec(env, files[i]);
  }
}

=== FILE: wrappers.dfy ===
/** The optional-value type used for every "may be missing" result in the model:
    Python's `None` returns and the exceptions the source catches and turns into skips. */
module Wrappers {

  datatype Option<+T> = None | Some(value: T)
}
